=== FILE: README.md ===
# Cross-service consistency layer of a video platform with a separate comment service

This Dafny project models the part of the system that keeps two services
consistent: the primary (video) service and the comment service. The model has
four pieces:

- **Comment reaction ledger** (`Ledger`). This is the comment service's
  `POST /comments/:commentId/action` handler. It keeps at most one
  CommentLike document per (userId, commentId) pair, plus the comment's
  `likesCount` and `dislikesCount` counters. A like or dislike request does one
  of three things:
  - creates the document;
  - deletes it, when the same action is sent again;
  - switches it in place, when the other action is sent.

  The counters move to match. Every decrement is floored at 0.
- **Health monitor** (`Health`). The primary service keeps an in-memory UP/DOWN
  flag for the comment service. It starts DOWN, and each probe overwrites it
  with that probe's outcome. The probe also writes log lines.
- **Gateway** (`Gateway`). These are the primary service's three comment routes,
  and each one first reads the health flag:
  - create answers 503 when the flag is DOWN;
  - action answers 503 when the flag is DOWN;
  - list answers `[]` when the flag is DOWN, and also on any error.

  The list route joins every comment with its author, taken from the primary
  service's user store.
- **Comment creation and stats propagation** (`Comments`). The comment service
  validates and stores a new comment. It then sends a fire-and-forget "increment
  comment count" call to the primary service. It also lists a video's comments
  newest first.

`Schema` holds the two document types, with Mongoose's `required` and `trim`
conventions and JavaScript's truthiness rule. `System` composes the gateway with
the comment service, which shows what a client observes end to end.

Every downstream call is a parameter of the route function that makes it, so
each route is a pure function:
- an HTTP reply, with status and body, or no reply at all;
- a database lookup;
- the user directory;
- whether a stats call is delivered.

Each route function returns the response together with the list of calls it
made. A counter is an `int`, not a `nat`, so the `Math.max(0, c - 1)` floor
changes something in the model. The well-formedness predicate
`Schema.WellFormed` is what keeps counters non-negative.

Assumption: the Comment schema (comment_service/src/models/Comment.model.js:3-37)
declares no `likesCount` or `dislikesCount`, yet the action handler reads and
writes them (comment_service/src/index.js:229-248, 256, 260). As written, on a
schema that does not declare them, `comment.likesCount++` would most likely read
`undefined` and set a property that `save()` does not persist, and the reply's
`likesCount` would serialise as null; this reading of Mongoose's strict mode is
not something the model settles. The model instead treats the counters as integer fields that a new
comment starts at 0, which is what the handler's arithmetic evidently intends.
The counter properties below hold under that assumption.

Behaviour of the code worth stating plainly:
- Sending the same action again deletes the document (comment_service/src/index.js:226-230).
  So "like twice" is not idempotent. `Ledger.SameActionTwiceRestores` proves
  that from the "none" state the database returns to exactly where it was.
  Sending the same action again is also the only way to clear a reaction
  (`Ledger.LikeDislikeClearScenario`).
- A gateway call that gets no reply at all answers 500
  (backend/src/routes/gateway.routes.js:166 and 241; `Gateway.Relay`).
- The alert line is printed on every failed probe, whatever the flag was before
  (backend/src/utils/heathCheck.js:25-29; `Health.RunLog`).
- Create can answer 500 after the 400 check passes. Content made only of white
  space passes `!content` (comment_service/src/index.js:184). It is then trimmed
  to `""`, and the `required` validator rejects it
  (`Comments.BlankContentFails`).

## Model

| member | source | states |
|---|---|---|
| `Schema.ParseAction` | comment_service/src/index.js:215-217 | An action is accepted only as one of the two enum strings, and the accepted value is the action's own name. |
| `Schema.ParseActionExact` | comment_service/src/models/CommentLike.model.js:19-23 | An action parses exactly when it is "like" or "dislike", and each enum value round-trips through its name. No "none" value exists. |
| `Schema.AtMostOneRecordPerPair` | comment_service/src/models/CommentLike.model.js:26-29 | Two CommentLike documents with the same (userId, commentId) are the same document. This is the unique index. |
| `Schema.NewComment` | comment_service/src/models/Comment.model.js:6-36 | A comment is created exactly when userId, videoId and the trimmed content are all non-empty. It stores the trimmed content, a null parentId, the creation time and zero counters. |
| `Schema.TrimSplits` | comment_service/src/models/Comment.model.js:19-23 | Stored content is the input with leading and trailing white space removed. Only white space is removed, and the result neither starts nor ends with white space. |
| `Schema.TrimFixesTrimmed` | comment_service/src/models/Comment.model.js:19-23 | Trimming leaves exactly the already-trimmed strings unchanged, so trimming twice is the same as trimming once. |
| `Ledger.Decrement` | comment_service/src/index.js:229-230 | The floored decrement is never negative. It is an exact decrement whenever the counter is at least 1. |
| `Ledger.Recount` | comment_service/src/index.js:224-249 | With no prior document, only the matching counter rises by 1. With the same action, only that counter is floor-decremented. With the other action, the new counter rises by 1 and the old one is floor-decremented. No other field changes. |
| `Ledger.HandleAction` | comment_service/src/index.js:210-266 | An invalid action answers 400 and a missing comment 404, both with nothing changed. A new document with an empty userId answers 500 with nothing changed. Otherwise the answer is success with the post-update likesCount, and the pair's state becomes the toggle of its old state. No other comment or pair changes. |
| `Ledger.FirstReactionCreates` | comment_service/src/index.js:244-249 | With no prior document, one is created with the given action, and only the matching counter rises by exactly 1. |
| `Ledger.RepeatedReactionDeletes` | comment_service/src/index.js:226-230 | Sending the recorded action again deletes the document. Only the matching counter is decremented, floored at 0. |
| `Ledger.OppositeReactionSwitches` | comment_service/src/index.js:231-243 | Sending the other action updates the one document in place, with no second document. The new action's counter rises by 1 and the other becomes max(0, c-1). |
| `Ledger.SameActionTwiceRestores` | comment_service/src/index.js:224-249 | From the "none" state, the same action sent twice restores the reaction documents and the counters exactly. |
| `Ledger.RecountNonNegative` | comment_service/src/index.js:229-241 | Counters that start non-negative stay non-negative after any transition. |
| `Ledger.TallyAfterWrite` | comment_service/src/index.js:226-249 | Writing one pair changes a comment's count of matching documents only by that pair's old and new state. |
| `Ledger.ActionKeepsWellFormed` | comment_service/src/index.js:224-251 | Any request keeps the database well formed. Counters stay non-negative, every document has a non-empty userId, and every document refers to a stored comment. |
| `Ledger.ActionKeepsConsistent` | comment_service/src/index.js:224-251 | If every counter equalled the number of matching documents for its comment before a request, it still does after it. |
| `Ledger.ReplayKeepsConsistent` | comment_service/src/index.js:210-266 | Handling any sequence of requests one at a time keeps counters equal to the document counts and never negative. |
| `Ledger.LikeDislikeClearScenario` | comment_service/src/index.js:224-249 | Like, then dislike, then dislike again takes the counters from (0, 0) to (1, 0), then (0, 1), then back to (0, 0), and leaves no document. |
| `Comments.CreateComment` | comment_service/src/index.js:180-207 | 400 comes exactly when userId, videoId or content is falsy, with nothing stored and no stats call. 500 comes exactly when all three are truthy but the trimmed content is empty or the id is taken, again with nothing stored or sent. A stored comment answers 201 with the document and fires exactly one increment for its video. |
| `Comments.BlankContentFails` | comment_service/src/index.js:184-188 | Content made only of white space passes the 400 check, then fails validation with 500. Nothing is stored. |
| `Comments.CreateKeepsWellFormed` | comment_service/src/index.js:188 | Storing a new comment keeps the database well formed. |
| `Comments.PropagateOne` | comment_service/src/index.js:197-200 | One delivered increment adds exactly one to its video's counter and leaves every other counter alone. |
| `Comments.Propagate` | comment_service/src/index.js:197-200 | A stats call that is lost changes no counter, and a delivered one never lowers a counter. |
| `Comments.ResponseIgnoresStats` | comment_service/src/index.js:197-202 | The response and the comment database are the same whether the stats call is delivered or lost. Only the video's counter differs, by exactly one, and only after a 201. |
| `Comments.CreateKeepsUnderCount` | comment_service/src/index.js:188-202 | A video's comment counter never exceeds the number of its stored comments. Increments can be lost but are never invented. |
| `Comments.InsertNewestFirst` | comment_service/src/index.js:172 | Inserting into a newest-first list keeps it newest first and adds exactly that one element. |
| `Comments.ListComments` | comment_service/src/index.js:169-177 | The list holds every comment of the video and nothing else, sorted by createdAt from newest to oldest. Each document appears exactly as many times as the video has ids storing it, so in a store of distinct documents each appears once. |
| `Health.CheckServices` | backend/src/utils/heathCheck.js:13-31 | The new flag is the probe's outcome, whatever the old flag was. The recovery line is printed exactly on a DOWN-to-UP edge. The alert line is printed on every failed probe. |
| `Health.RunEndsWithLastProbe` | backend/src/utils/heathCheck.js:13-34 | After any series of probes, the flag the gateway reads is the outcome of the last probe. |
| `Health.StatusFromStart` | backend/src/utils/heathCheck.js:9-34 | From process start the flag is DOWN. It is UP exactly when there was a probe and the last one succeeded. |
| `Health.RunLog` | backend/src/utils/heathCheck.js:14-30 | A series of probes prints one start line per probe, one recovery line per false-to-true edge of the flag and one alert line per failed probe. |
| `Gateway.Relay` | backend/src/routes/gateway.routes.js:159-167 | A 2xx reply becomes the route's success status with the downstream body. Any other reply passes its status and body through verbatim. No reply at all becomes 500. |
| `Gateway.CreateComment` | backend/src/routes/gateway.routes.js:123-168 | With the circuit DOWN the answer is 503 and no call is made. An unknown video answers 404 and nothing is forwarded. A failed video lookup, or a user lookup that fails or finds nobody, answers 500. A create is forwarded exactly when the video and user are found. The forwarded payload carries userId, videoId and content unchanged, plus the user's profile snapshot. |
| `Gateway.ForwardAction` | backend/src/routes/gateway.routes.js:217-243 | With the circuit DOWN the answer is 503 and no call is made. Otherwise userId and action are forwarded unchanged, and the reply is relayed. |
| `Gateway.Dedupe` | backend/src/routes/gateway.routes.js:190 | The queried userIds have no duplicates, are exactly the userIds of the raw comments, and keep first-occurrence order. |
| `Gateway.UserMap` | backend/src/routes/gateway.routes.js:193-197 | The user map holds exactly the queried ids that exist in the user store, each with that user's profile. |
| `Gateway.Enrich` | backend/src/routes/gateway.routes.js:199-202 | The enriched list has the raw list's length and order. Each element keeps its original fields and gets its resolved user, or the placeholder. |
| `Gateway.ListComments` | backend/src/routes/gateway.routes.js:174-211 | The list route always answers 200 with a list. With the circuit DOWN that list is empty and no call is made. |
| `Gateway.ListJoinsUsers` | backend/src/routes/gateway.routes.js:181-204 | On success, users are queried once with the distinct userIds and no others. Every comment is kept in order, with its user from the store or `{ username: 'Unknown', avatarUrl: '' }`. |
| `Gateway.ListDegradesToEmpty` | backend/src/routes/gateway.routes.js:175-210 | With the circuit DOWN, a non-2xx reply, no reply or a failed user query, the answer is 200 with an empty list. |
| `System.ClientSeesLedgerReply` | backend/src/routes/gateway.routes.js:229-242 | Through the gateway, a client sees the comment service's own action status and body. A DOWN circuit gives 503 with no change, and a missing reply gives 500 with no change. |
| `System.ClientCreateOutcomes` | backend/src/routes/gateway.routes.js:125-159 | End to end, a DOWN circuit gives 503 with nothing called, stored or counted. An unknown video gives 404 with nothing forwarded. Once forwarded, the client gets 201 exactly when the comment is stored. |
| `System.ClientCreateIgnoresStats` | comment_service/src/index.js:197-202 | The client's answer to a create does not depend on whether the stats call is delivered. |
| `System.ClientRequestsKeepUnderCount` | comment_service/src/index.js:188-251 | Neither a create, whatever became of its stats call, nor a like or dislike makes a video's comment counter exceed its stored comments. |
| `System.ClientList` | backend/src/routes/gateway.routes.js:181-210 | With both services up and the user query succeeding, the client gets the video's comments newest first. Each stored document appears exactly as many times as the video has ids holding it, with its author from the user store or the placeholder. When the user query throws, the client gets an empty list. |

## Left out

- Authentication: `authMiddleware` runs before the circuit check on create and action (backend/src/routes/gateway.routes.js:123, 217). The model starts after authentication succeeded and takes `userId` from the session. An unauthenticated request never reaches the 503.
- HTTP, Express, axios, socket.io rooms and events (`receive_comment`, `update_comment_stats`), and the MongoDB connections: this is I/O. Each downstream call is a parameter holding its result.
- The 30-second `setInterval` and the 2-second probe timeout: this is real-time scheduling. A timeout is one of the probe outcomes, and one `Health.CheckServices` call is one probe.
- Concurrent requests: the model is sequential. The source has no locking, and two interleaved toggles on one pair can miscount.
- A write that fails part-way through the action handler: the document written but the counter save failing, or the reverse. The database is assumed to accept every write except the validation failures modelled here.
- A reply lost after the comment service already committed: in `System`, an unreachable comment service changes nothing.
- An absent `userId` in the action body: how Mongoose casts an undefined query value is not visible. The gateway always sends the session's userId. The empty string is modelled, and its create fails the `required` validator.
- Ledger.HandleAction: compares comment ids as exact strings, both when it finds the comment and in the reaction key. In the source, `Comment.findById` (comment_service/src/index.js:220) casts the id to an ObjectId, which accepts upper-case hex. `CommentLike.findOne` (index.js:219) and the unique index (comment_service/src/models/CommentLike.model.js:26-29) compare the raw string instead. So a differently spelled valid id, which the gateway forwards unchanged (backend/src/routes/gateway.routes.js:229), finds the stored comment but is a new reaction key. The source can then hold several reactions per user per comment, and a counter can exceed its comment's document count. The model answers 404 for such an id. So `Ledger.ActionKeepsConsistent` and the one-reaction-per-pair reading hold only for requests that use the stored spelling. Mongoose's casting rules are not part of this model.
- Path parameters: the gateway puts `videoId` and `commentId` into the downstream URL without encoding them (backend/src/routes/gateway.routes.js:185, 229), and Express decodes them first. An id holding an encoded `/`, `?` or `#` can therefore address a different comment-service resource from the one the client named. The end-to-end lemmas in `System` assume the comment service receives exactly the id the gateway received.
- Malformed ObjectIds: in the source a cast error answers 500 where the model answers 404 for an unknown comment id. Ids are opaque strings here. On the gateway's list path, a failing `User.find`, a cast error included, is `queryFails`.
- JSON values that are not strings in request bodies: fields are strings or absent.
- The receiving end of the stats increment: the primary service's stats handler is not part of this model. A delivered increment is assumed to add one to the video's counter.
- Comments.Propagate: states only that lost calls change nothing and delivered calls never lower a counter. The exact effect of one delivered call is stated in `Comments.PropagateOne` and `Comments.ResponseIgnoresStats`.
- Gateway.ListComments: its own contract states only the 200 status and the DOWN case. Its join and degradation are stated in `Gateway.ListJoinsUsers` and `Gateway.ListDegradesToEmpty`.
- Health.GetServiceStatus: models `getServiceStatus` (backend/src/utils/heathCheck.js:34) and carries no contract of its own. The source returns the live object, and the model returns the status value. Reading it is pure by construction, so no member states that it never probes or mutates. What a read returns after a series of probes is stated in `Health.RunEndsWithLastProbe`.
- The commented-out legacy code in both services, the stats, admin and video routes and controllers, and the admin middleware: these are thin wrappers over database queries and not part of the consistency layer.
- Reactions to videos, as opposed to comments, are not modelled.

=== FILE: comments.dfy ===
/**
 The comment service's create and list handlers (`POST /comments`,
 `GET /comments/:videoId`) and the fire-and-forget stats call that a
 successful create sends to the primary service.
 */
module Comments {
  import opened Schema

  // ---------------------------------------------------------------------------
  // POST /comments
  // ---------------------------------------------------------------------------

  /** 201 with the new document, 400 for a missing field, 500 when the insert throws. */
  datatype CreateReply = Created(comment: Comment) | MissingFields | CreateFailed

  function CreateStatus(r: CreateReply): int {
    match r
    case Created(_) => 201
    case MissingFields => 400
    case CreateFailed => 500
  }

  /** `POST /videos/:videoId/stats/comments` with `{ action: 'increment' }`; its answer is never awaited. */
  datatype StatsCall = IncrementComments(videoId: string)

  datatype CreateStep = CreateStep(store: Store, reply: CreateReply, stats: seq<StatsCall>)

  /**
   The create handler. `newId` is the `_id` the database assigns and `now`
   the clock reading `createdAt` defaults to. A falsy field answers 400; the
   insert throws (500) when the trimmed content is empty, which the `required`
   validator refuses, or when the id is already taken. Only a stored comment
   is followed by exactly one stats call.
   */
  function CreateComment(s: Store, userId: Field, videoId: Field, content: Field, newId: string, now: int): (r: CreateStep)
    ensures !(Truthy(userId) && Truthy(videoId) && Truthy(content)) ==> r == CreateStep(s, MissingFields, [])
    ensures !r.reply.Created? ==> r.store == s && r.stats == []
    ensures r.reply == MissingFields <==> !(Truthy(userId) && Truthy(videoId) && Truthy(content))
    ensures r.reply == CreateFailed <==>
              && Truthy(userId) && Truthy(videoId) && Truthy(content)
              && !(Required(Trim(content.value)) && newId !in s.comments)
    ensures r.reply.Created? <==>
              && Truthy(userId) && Truthy(videoId) && Truthy(content)
              && Required(Trim(content.value)) && newId !in s.comments
    ensures r.reply.Created? ==>
              && r.store == s.(comments := s.comments[newId := r.reply.comment])
              && r.reply.comment.id == newId
              && userId == Some(r.reply.comment.userId)
              && videoId == Some(r.reply.comment.videoId)
              && r.reply.comment.content == Trim(content.value)
              && r.reply.comment.parentId == None
              && r.reply.comment.createdAt == now
              && r.reply.comment.likesCount == 0 && r.reply.comment.dislikesCount == 0
              && r.stats == [IncrementComments(r.reply.comment.videoId)]
  {
    if !(Truthy(userId) && Truthy(videoId) && Truthy(content)) then CreateStep(s, MissingFields, [])
    else if newId in s.comments then CreateStep(s, CreateFailed, [])
    else
      match NewComment(newId, userId.value, videoId.value, content.value, now)
      case None => CreateStep(s, CreateFailed, [])
      case Some(c) =>
        CreateStep(s.(comments := s.comments[newId := c]), Created(c), [IncrementComments(c.videoId)])
  }

  /** Content made only of white space passes the 400 check but fails validation: 500, nothing stored. */
  lemma BlankContentFails(s: Store, userId: string, videoId: string, content: string, newId: string, now: int)
    requires Required(userId) && Required(videoId) && content != "" && AllSpace(content)
    ensures CreateComment(s, Some(userId), Some(videoId), Some(content), newId, now) == CreateStep(s, CreateFailed, [])
  {
    TrimAllSpace(content);
  }

  /** A stored comment keeps the database well formed when the assigned id is a real one. */
  lemma CreateKeepsWellFormed(s: Store, userId: Field, videoId: Field, content: Field, newId: string, now: int)
    requires WellFormed(s) && Required(newId)
    ensures WellFormed(CreateComment(s, userId, videoId, content, newId, now).store)
  {
    var r := CreateComment(s, userId, videoId, content, newId, now);
    if r.reply.Created? {
      var c := r.reply.comment;
      assert r.store == Store(s.comments[newId := c], s.reactions);
      InsertKeepsWellFormed(s, c);
    }
  }

  // ---------------------------------------------------------------------------
  // The stats channel
  // ---------------------------------------------------------------------------

  /**
   The primary service's denormalized per-video comment counters. Its
   receiving handler is not part of this model; a delivered increment is
   taken to add one to the video's counter, an absent counter reading 0.
   */
  type VideoCounters = map<string, int>

  function CommentCounter(counters: VideoCounters, videoId: string): int {
    if videoId in counters then counters[videoId] else 0
  }

  /** The effect of the stats calls: applied when delivered, silently lost otherwise. */
  function Propagate(counters: VideoCounters, calls: seq<StatsCall>, delivered: bool): (r: VideoCounters)
    ensures !delivered || calls == [] ==> r == counters
    ensures forall v :: CommentCounter(counters, v) <= CommentCounter(r, v)
    decreases |calls|
  {
    if calls == [] || !delivered then counters
    else
      var v := calls[0].videoId;
      Propagate(counters[v := CommentCounter(counters, v) + 1], calls[1..], delivered)
  }

  /** One delivered increment adds exactly one to its video's counter. */
  lemma PropagateOne(counters: VideoCounters, v: string)
    ensures Propagate(counters, [IncrementComments(v)], true) == counters[v := CommentCounter(counters, v) + 1]
  {
    assert [IncrementComments(v)][1..] == [];
  }

  datatype Outcome = Outcome(store: Store, counters: VideoCounters, reply: CreateReply)

  /** A create request together with the fate of the stats call it may fire. */
  function CreateAndPropagate(s: Store, counters: VideoCounters, userId: Field, videoId: Field, content: Field,
                              newId: string, now: int, delivered: bool): Outcome
  {
    var step := CreateComment(s, userId, videoId, content, newId, now);
    Outcome(step.store, Propagate(counters, step.stats, delivered), step.reply)
  }

  /**
   Fire-and-forget: the response and the comment database are the same
   whether the stats call is delivered or lost; only the video's counter
   differs, by exactly one, and only after a 201.
   */
  lemma ResponseIgnoresStats(s: Store, counters: VideoCounters, userId: Field, videoId: Field, content: Field,
                             newId: string, now: int)
    ensures var hit := CreateAndPropagate(s, counters, userId, videoId, content, newId, now, true);
            var lost := CreateAndPropagate(s, counters, userId, videoId, content, newId, now, false);
            && hit.reply == lost.reply && hit.store == lost.store
            && lost.counters == counters
            && (hit.reply.Created? ==>
                  hit.counters == counters[videoId.value := CommentCounter(counters, videoId.value) + 1])
            && (!hit.reply.Created? ==> hit.counters == counters)
  {
    var step := CreateComment(s, userId, videoId, content, newId, now);
    if step.reply.Created? {
      assert step.stats == [IncrementComments(videoId.value)];
      PropagateOne(counters, videoId.value);
    } else {
      assert step.stats == [];
    }
  }

  /** The comments stored for one video. */
  function CommentsOn(comments: map<string, Comment>, videoId: string): set<string> {
    set id | id in comments && comments[id].videoId == videoId
  }

  /** The channel may lose increments but never invents one: each counter stays at or below the true count. */
  ghost predicate UnderCounts(s: Store, counters: VideoCounters) {
    forall v :: CommentCounter(counters, v) <= |CommentsOn(s.comments, v)|
  }

  lemma CreateKeepsUnderCount(s: Store, counters: VideoCounters, userId: Field, videoId: Field, content: Field,
                              newId: string, now: int, delivered: bool)
    requires UnderCounts(s, counters)
    ensures var o := CreateAndPropagate(s, counters, userId, videoId, content, newId, now, delivered);
            UnderCounts(o.store, o.counters)
  {
    var step := CreateComment(s, userId, videoId, content, newId, now);
    if step.reply.Created? {
      var c := step.reply.comment;
      assert step.store == Store(s.comments[newId := c], s.reactions);
      assert step.stats == [IncrementComments(c.videoId)];
      InsertKeepsUnderCount(s, counters, newId, c, delivered);
    }
  }

  lemma InsertKeepsUnderCount(s: Store, counters: VideoCounters, id: string, c: Comment, delivered: bool)
    requires UnderCounts(s, counters) && id !in s.comments
    ensures UnderCounts(Store(s.comments[id := c], s.reactions), Propagate(counters, [IncrementComments(c.videoId)], delivered))
  {
    var after := Propagate(counters, [IncrementComments(c.videoId)], delivered);
    assert after == if delivered then counters[c.videoId := CommentCounter(counters, c.videoId) + 1] else counters;
    forall v
      ensures CommentCounter(after, v) <= |CommentsOn(s.comments[id := c], v)|
    {
      CommentsOnInsert(s.comments, id, c, v);
      assert CommentCounter(counters, v) <= |CommentsOn(s.comments, v)|;
    }
  }

  /** A new document adds itself to its own video's comments and to no other's. */
  lemma CommentsOnInsert(comments: map<string, Comment>, id: string, c: Comment, v: string)
    requires id !in comments
    ensures |CommentsOn(comments[id := c], v)| == |CommentsOn(comments, v)| + (if c.videoId == v then 1 else 0)
  {
    var before := CommentsOn(comments, v);
    var after := CommentsOn(comments[id := c], v);
    if c.videoId == v {
      assert after == before + {id};
    } else {
      assert after == before;
    }
  }

  // ---------------------------------------------------------------------------
  // GET /comments/:videoId
  // ---------------------------------------------------------------------------

  predicate NewestFirst(cs: seq<Comment>) {
    forall i, j :: 0 <= i < j < |cs| ==> cs[i].createdAt >= cs[j].createdAt
  }

  /** Places a comment in a newest-first list. */
  function InsertNewestFirst(cs: seq<Comment>, c: Comment): (r: seq<Comment>)
    requires NewestFirst(cs)
    ensures NewestFirst(r)
    ensures multiset(r) == multiset(cs) + multiset{c}
    decreases |cs|
  {
    if cs == [] || c.createdAt >= cs[0].createdAt then
      [c] + cs
    else
      var rest := InsertNewestFirst(cs[1..], c);
      assert cs == [cs[0]] + cs[1..];
      HeadBoundsRest(cs, c, rest);
      [cs[0]] + rest
  }

  /** Every element of the insertion into the tail is no newer than the head. */
  lemma HeadBoundsRest(cs: seq<Comment>, c: Comment, rest: seq<Comment>)
    requires NewestFirst(cs) && cs != [] && c.createdAt < cs[0].createdAt
    requires multiset(rest) == multiset(cs[1..]) + multiset{c}
    ensures forall j :: 0 <= j < |rest| ==> rest[j].createdAt <= cs[0].createdAt
  {
    forall j | 0 <= j < |rest|
      ensures rest[j].createdAt <= cs[0].createdAt
    {
      var x := rest[j];
      assert x in multiset(rest);
      if x != c {
        assert x in multiset(cs[1..]);
        var k :| 0 <= k < |cs[1..]| && cs[1..][k] == x;
        assert cs[k + 1] == x;
      }
    }
  }

  /** The ids among `ids` whose stored document is `x`. */
  function Holding(comments: map<string, Comment>, ids: set<string>, x: Comment): set<string> {
    set id | id in ids && id in comments && comments[id] == x
  }

  /** Adding one id adds one holder of its own document and of no other. */
  lemma HoldingAdd(comments: map<string, Comment>, ids: set<string>, id: string, x: Comment)
    requires id !in ids && id in comments
    ensures |Holding(comments, ids + {id}, x)| == |Holding(comments, ids, x)| + (if comments[id] == x then 1 else 0)
  {
    if comments[id] == x {
      assert Holding(comments, ids + {id}, x) == Holding(comments, ids, x) + {id};
    } else {
      assert Holding(comments, ids + {id}, x) == Holding(comments, ids, x);
    }
  }

  /** One step of the listing loop: inserting the document of a not yet listed id keeps the loop's invariants. */
  lemma ListStep(comments: map<string, Comment>, videoId: string, wanted: set<string>, remaining: set<string>,
                 id: string, before: seq<Comment>, after: seq<Comment>)
    requires wanted == CommentsOn(comments, videoId) && remaining <= wanted && id in remaining
    requires multiset(after) == multiset(before) + multiset{comments[id]}
    requires forall x :: x in before ==> x in comments.Values && x.videoId == videoId
    requires forall k :: k in wanted - remaining ==> comments[k] in before
    requires forall x :: multiset(before)[x] == |Holding(comments, wanted - remaining, x)|
    ensures |after| == |before| + 1
    ensures forall x :: x in after ==> x in comments.Values && x.videoId == videoId
    ensures forall k :: k in wanted - (remaining - {id}) ==> comments[k] in after
    ensures forall x :: multiset(after)[x] == |Holding(comments, wanted - (remaining - {id}), x)|
  {
    assert |multiset(after)| == |multiset(before)| + 1;
    forall x | x in after
      ensures x in comments.Values && x.videoId == videoId
    {
      assert x in multiset(after);
      if x != comments[id] {
        assert x in multiset(before);
      }
    }
    forall k | k in wanted - (remaining - {id})
      ensures comments[k] in after
    {
      if k != id {
        assert comments[k] in multiset(before);
      }
      assert comments[k] in multiset(after);
    }
    assert wanted - (remaining - {id}) == (wanted - remaining) + {id};
    forall x
      ensures multiset(after)[x] == |Holding(comments, wanted - (remaining - {id}), x)|
    {
      HoldingAdd(comments, wanted - remaining, id, x);
    }
  }

  /**
   `Comment.find({ videoId }).sort({ createdAt: -1 })`: every comment of the
   video exactly once, nothing else, newest first. A document appears as
   many times as there are ids of the video storing it.
   */
  method ListComments(comments: map<string, Comment>, videoId: string) returns (r: seq<Comment>)
    ensures NewestFirst(r)
    ensures |r| == |CommentsOn(comments, videoId)|
    ensures forall x :: x in r ==> x in comments.Values && x.videoId == videoId
    ensures forall id :: id in CommentsOn(comments, videoId) ==> comments[id] in r
    ensures forall x :: multiset(r)[x] == |Holding(comments, CommentsOn(comments, videoId), x)|
  {
    var wanted := CommentsOn(comments, videoId);
    var remaining := wanted;
    r := [];
    while remaining != {}
      invariant remaining <= wanted
      invariant NewestFirst(r)
      invariant |r| + |remaining| == |wanted|
      invariant forall x :: x in r ==> x in comments.Values && x.videoId == videoId
      invariant forall id :: id in wanted - remaining ==> comments[id] in r
      invariant forall x :: multiset(r)[x] == |Holding(comments, wanted - remaining, x)|
      decreases |remaining|
    {
      var id :| id in remaining;
      var before := r;
      r := InsertNewestFirst(r, comments[id]);
      ListStep(comments, videoId, wanted, remaining, id, before, r);
      remaining := remaining - {id};
    }
    assert wanted - remaining == wanted;
  }
}

=== FILE: gateway.dfy ===
/**
 The primary service's gateway to the comment service: the three live
 routes of the comments router. Every route first reads the health flag.
 The writes (create, action) answer 503 when it is down; the read (list)
 answers an empty list instead, and also on any error.

 Each downstream call is a parameter holding its result: the comment
 service's reply, the video lookup, the user lookup and the user
 directory. The route then becomes a pure function that returns the
 response together with the calls it made, in order. `D` is the type of
 the comment service's JSON bodies, which the gateway never inspects.
 */
module Gateway {
  import opened Schema
  import Health

  /** An axios call: a reply with a status and a body, or no reply at all (network error, timeout). */
  datatype Reply<D> = Answered(status: int, data: D) | NoResponse

  /** axios resolves for a 2xx status and rejects with `error.response` for any other. */
  predicate Success(status: int) {
    200 <= status < 300
  }

  /** A Mongoose `findById` in the primary service's own database; `Failed` is a thrown error. */
  datatype Lookup<T> = Found(value: T) | Missing | Failed

  /** The user fields the gateway selects: `_id`, `username`, `avatarUrl`, `channelName`. */
  datatype Profile = Profile(id: string, username: string, avatarUrl: string, channelName: string)

  /** The body forwarded to `POST /comments`. */
  datatype CreatePayload = CreatePayload(userId: string, videoId: Field, content: Field, userData: Profile)

  /** A listed comment: its `userId` and the rest of its JSON fields. */
  datatype RawComment<D> = RawComment(userId: string, fields: D)

  /** The `user` attached to a listed comment: the resolved profile or the placeholder. */
  datatype Author = Resolved(profile: Profile) | Placeholder

  function Username(a: Author): string {
    match a
    case Resolved(p) => p.username
    case Placeholder => "Unknown"
  }

  function AvatarUrl(a: Author): string {
    match a
    case Resolved(p) => p.avatarUrl
    case Placeholder => ""
  }

  /** `{ ...comment, user }`: the original fields, untouched, plus `user`. */
  datatype Enriched<D> = Enriched(comment: RawComment<D>, user: Author)

  /** The outbound operations a route can make. */
  datatype Call =
    | FindVideo(id: Field)
    | FindUser(userId: string)
    | PostComment(payload: CreatePayload)
    | GetComments(videoId: string)
    | FindUsers(ids: seq<string>)
    | PostAction(commentId: string, userId: string, action: Field)

  datatype Body<D> = Message(text: string) | Passed(data: D) | Listing(comments: seq<Enriched<D>>)

  datatype Response<D> = Response(status: int, body: Body<D>)

  /** A route's answer and the calls it made, in order. */
  datatype Exchange<D> = Exchange(response: Response<D>, calls: seq<Call>)

  const CommentsDown := "Hệ thống bình luận đang bảo trì. Vui lòng thử lại sau."
  const ActionsDown := "Tính năng tương tác đang bảo trì."
  const VideoNotFound := "Video không tồn tại."
  const UpstreamFailed := "Lỗi kết nối đến Comment Service."

  /**
   The error mapping of both writes: a 2xx reply becomes `okStatus` with the
   downstream body; any other reply passes its status and body through
   verbatim; no reply at all becomes 500.
   */
  function Relay<D>(reply: Reply<D>, okStatus: int): (r: Response<D>)
    requires Success(okStatus)
    ensures reply.Answered? ==> r.body == Passed(reply.data)
    ensures reply.Answered? && !Success(reply.status) ==> r.status == reply.status
    ensures reply.Answered? && Success(reply.status) ==> r.status == okStatus
    ensures reply.NoResponse? ==> r == Response(500, Message(UpstreamFailed))
    ensures Success(r.status) <==> reply.Answered? && Success(reply.status)
  {
    match reply
    case Answered(status, data) =>
      if Success(status) then Response(okStatus, Passed(data)) else Response(status, Passed(data))
    case NoResponse => Response(500, Message(UpstreamFailed))
  }

  // ---------------------------------------------------------------------------
  // POST /api/comments
  // ---------------------------------------------------------------------------

  /**
   Create. `userId` comes from the authenticated session, `videoId` and
   `content` from the body. A failed video lookup, or a user lookup that
   fails or finds nobody (reading `_id` of null throws), carries no
   `error.response` and so answers 500.
   */
  function CreateComment<D>(health: Health.ServiceStatus, userId: string, videoId: Field, content: Field,
                            video: Lookup<()>, user: Lookup<Profile>, reply: Reply<D>): (x: Exchange<D>)
    ensures !health.comment ==> x == Exchange(Response(503, Message(CommentsDown)), [])
    ensures health.comment && video.Missing? ==> x == Exchange(Response(404, Message(VideoNotFound)), [FindVideo(videoId)])
    ensures health.comment && (video.Failed? || (video.Found? && !user.Found?)) ==>
              x.response == Response(500, Message(UpstreamFailed))
    ensures (exists p :: PostComment(p) in x.calls) <==> health.comment && video.Found? && user.Found?
    ensures forall p :: PostComment(p) in x.calls ==> p == CreatePayload(userId, videoId, content, user.value)
    ensures health.comment && video.Found? && user.Found? ==> x.response == Relay(reply, 201)
    ensures Success(x.response.status) ==> x.response.status == 201
    ensures Success(x.response.status) <==>
              health.comment && video.Found? && user.Found? && reply.Answered? && Success(reply.status)
  {
    if !Health.GetServiceStatus(health).comment then
      Exchange(Response(503, Message(CommentsDown)), [])
    else
      match video
      case Failed => Exchange(Response(500, Message(UpstreamFailed)), [FindVideo(videoId)])
      case Missing => Exchange(Response(404, Message(VideoNotFound)), [FindVideo(videoId)])
      case Found(_) =>
        match user
        case Found(p) =>
          var payload := CreatePayload(userId, videoId, content, p);
          Exchange(Relay(reply, 201), [FindVideo(videoId), FindUser(userId), PostComment(payload)])
        case _ =>
          Exchange(Response(500, Message(UpstreamFailed)), [FindVideo(videoId), FindUser(userId)])
  }

  // ---------------------------------------------------------------------------
  // POST /api/comments/:commentId/action
  // ---------------------------------------------------------------------------

  /** Action: fails loudly with 503 when the circuit is open, otherwise forwards userId and action unchanged. */
  function ForwardAction<D>(health: Health.ServiceStatus, commentId: string, userId: string, action: Field,
                            reply: Reply<D>): (x: Exchange<D>)
    ensures !health.comment ==> x == Exchange(Response(503, Message(ActionsDown)), [])
    ensures health.comment ==> x.calls == [PostAction(commentId, userId, action)] && x.response == Relay(reply, 200)
  {
    if !Health.GetServiceStatus(health).comment then
      Exchange(Response(503, Message(ActionsDown)), [])
    else
      Exchange(Relay(reply, 200), [PostAction(commentId, userId, action)])
  }

  // ---------------------------------------------------------------------------
  // GET /api/comments/:videoId
  // ---------------------------------------------------------------------------

  predicate Distinct<T(==)>(s: seq<T>) {
    forall i, j :: 0 <= i < j < |s| ==> s[i] != s[j]
  }

  /** The position of the first occurrence of `x`. */
  function IndexOf<T(==)>(s: seq<T>, x: T): (k: nat)
    requires x in s
    ensures k < |s| && s[k] == x
    ensures forall i :: 0 <= i < k ==> s[i] != x
    decreases |s|
  {
    if s[0] == x then 0 else 1 + IndexOf(s[1..], x)
  }

  lemma IndexOfExtended<T>(s: seq<T>, y: T, x: T)
    requires x in s
    ensures IndexOf(s + [y], x) == IndexOf(s, x)
  {
    var k := IndexOf(s, x);
    var t := s + [y];
    assert t[k] == x;
    var k' := IndexOf(t, x);
    assert forall i :: 0 <= i < k ==> t[i] != x;
    assert k' <= k;
    assert s[k'] == x;
  }

  /**
   `[...new Set(ids)]`: each id once, nothing else, in order of first
   occurrence.
   */
  function Dedupe(ids: seq<string>): (r: seq<string>)
    ensures Distinct(r)
    ensures forall x :: x in r <==> x in ids
    ensures forall i, j :: 0 <= i < j < |r| ==> IndexOf(ids, r[i]) < IndexOf(ids, r[j])
    decreases |ids|
  {
    if ids == [] then []
    else
      var front := ids[..|ids| - 1];
      var last := ids[|ids| - 1];
      assert ids == front + [last];
      var d := Dedupe(front);
      forall x | x in front
        ensures IndexOf(ids, x) == IndexOf(front, x)
      {
        IndexOfExtended(front, last, x);
      }
      if last in d then d
      else
        assert IndexOf(ids, last) == |front|;
        d + [last]
  }

  function UserIds<D>(raw: seq<RawComment<D>>): (ids: seq<string>)
    ensures |ids| == |raw| && forall i :: 0 <= i < |raw| ==> ids[i] == raw[i].userId
  {
    seq(|raw|, i requires 0 <= i < |raw| => raw[i].userId)
  }

  /** `userMap`: the users the `$in` query returns, keyed by their id. */
  function UserMap(directory: map<string, Profile>, ids: seq<string>): (m: map<string, Profile>)
    ensures forall id :: id in m <==> id in ids && id in directory
    ensures forall id :: id in m ==> m[id] == directory[id]
  {
    map id | id in ids && id in directory :: directory[id]
  }

  /** The application-level join: each comment, in place, with its resolved user or the placeholder. */
  function Enrich<D>(raw: seq<RawComment<D>>, users: map<string, Profile>): (r: seq<Enriched<D>>)
    ensures |r| == |raw|
    ensures forall i :: 0 <= i < |raw| ==> r[i].comment == raw[i]
    ensures forall i :: 0 <= i < |raw| ==>
              r[i].user == if raw[i].userId in users then Resolved(users[raw[i].userId]) else Placeholder
  {
    seq(|raw|, i requires 0 <= i < |raw| =>
      Enriched(raw[i], if raw[i].userId in users then Resolved(users[raw[i].userId]) else Placeholder))
  }

  /**
   List. `listing` is the comment service's reply and `directory` the
   primary service's users; `queryFails` is a thrown `User.find`. The
   circuit open, a non-2xx reply, no reply and a failed query all answer 200
   with an empty list.
   */
  function ListComments<D>(health: Health.ServiceStatus, videoId: string, listing: Reply<seq<RawComment<D>>>,
                           directory: map<string, Profile>, queryFails: bool): (x: Exchange<D>)
    ensures x.response.status == 200 && x.response.body.Listing?
    ensures !health.comment ==> x == Exchange(Response(200, Listing([])), [])
  {
    var empty := Response(200, Listing([]));
    if !Health.GetServiceStatus(health).comment then Exchange(empty, [])
    else
      match listing
      case NoResponse => Exchange(empty, [GetComments(videoId)])
      case Answered(status, raw) =>
        if !Success(status) then Exchange(empty, [GetComments(videoId)])
        else
          var ids := Dedupe(UserIds(raw));
          if queryFails then Exchange(empty, [GetComments(videoId), FindUsers(ids)])
          else Exchange(Response(200, Listing(Enrich(raw, UserMap(directory, ids)))), [GetComments(videoId), FindUsers(ids)])
  }

  /**
   When the list path succeeds: the users are queried once, with every
   distinct userId of the raw comments and nothing else; the answer keeps
   every comment, in order, each with its user from the directory or the
   placeholder `{ username: 'Unknown', avatarUrl: '' }`.
   */
  lemma ListJoinsUsers<D>(health: Health.ServiceStatus, videoId: string, status: int, raw: seq<RawComment<D>>,
                          directory: map<string, Profile>)
    requires health.comment && Success(status)
    ensures var x := ListComments(health, videoId, Answered(status, raw), directory, false);
            && |x.calls| == 2 && x.calls[0] == GetComments(videoId) && x.calls[1].FindUsers?
            && Distinct(x.calls[1].ids)
            && (forall id :: id in x.calls[1].ids <==> exists i :: 0 <= i < |raw| && raw[i].userId == id)
            && |x.response.body.comments| == |raw|
            && forall i :: 0 <= i < |raw| ==>
                 && x.response.body.comments[i].comment == raw[i]
                 && x.response.body.comments[i].user
                    == (if raw[i].userId in directory then Resolved(directory[raw[i].userId]) else Placeholder)
                 && (raw[i].userId !in directory ==>
                       Username(x.response.body.comments[i].user) == "Unknown"
                       && AvatarUrl(x.response.body.comments[i].user) == "")
  {
    var ids := Dedupe(UserIds(raw));
    var users := UserMap(directory, ids);
    forall i | 0 <= i < |raw|
      ensures raw[i].userId in ids
    {
      assert UserIds(raw)[i] == raw[i].userId;
    }
    forall id | id in ids
      ensures exists i :: 0 <= i < |raw| && raw[i].userId == id
    {
      var i :| 0 <= i < |UserIds(raw)| && UserIds(raw)[i] == id;
      assert raw[i].userId == id;
    }
  }

  /** Any failure on the list path degrades to 200 with an empty list; it never surfaces as an error. */
  lemma ListDegradesToEmpty<D>(health: Health.ServiceStatus, videoId: string, listing: Reply<seq<RawComment<D>>>,
                               directory: map<string, Profile>, queryFails: bool)
    requires !health.comment || listing.NoResponse? || !Success(listing.status) || queryFails
    ensures ListComments(health, videoId, listing, directory, queryFails).response == Response(200, Listing([]))
  {
  }
}

=== FILE: health.dfy ===
/**
 The primary service's health monitor: an in-memory UP/DOWN flag for the
 comment service, overwritten by every probe of its health endpoint. The
 30-second schedule is left to the caller; one call of `CheckServices` is
 one probe.
 */
module Health {

  /** The outcome of one `axios.get` of the health endpoint with a 2-second timeout. */
  datatype ProbeResult = Replied(status: int) | TimedOut | Unreachable

  /** axios resolves only for a 2xx status; any other status, a timeout or a network error rejects. */
  predicate Succeeded(p: ProbeResult) {
    p.Replied? && 200 <= p.status < 300
  }

  /** The console lines of one probe: the start line, the recovery line and the alert line. */
  datatype LogLine = Checking | Recovered | Alert

  /** The in-memory `serviceStatus` object; COMMENT is the one service it tracks. */
  datatype ServiceStatus = ServiceStatus(comment: bool)

  /** At process start the comment service is taken to be DOWN. */
  const Initial: ServiceStatus := ServiceStatus(false)

  datatype ProbeStep = ProbeStep(status: ServiceStatus, log: seq<LogLine>)

  /**
   One probe. The new flag is the probe's outcome whatever the old flag was
   (no hysteresis); the recovery line is printed only on a DOWN-to-UP edge,
   the alert line on every failed probe.
   */
  function CheckServices(m: ServiceStatus, p: ProbeResult): (r: ProbeStep)
    ensures r.status.comment == Succeeded(p)
    ensures |r.log| >= 1 && r.log[0] == Checking
    ensures Recovered in r.log <==> !m.comment && Succeeded(p)
    ensures Alert in r.log <==> !Succeeded(p)
  {
    if Succeeded(p) then
      ProbeStep(ServiceStatus(true), if !m.comment then [Checking, Recovered] else [Checking])
    else
      ProbeStep(ServiceStatus(false), [Checking, Alert])
  }

  /** What the gateway reads: the flag as the last probe left it, with no probe of its own. */
  function GetServiceStatus(m: ServiceStatus): ServiceStatus {
    m
  }

  /** The monitor after a series of probes, with everything they printed. */
  function Run(m: ServiceStatus, probes: seq<ProbeResult>): ProbeStep
    decreases |probes|
  {
    if probes == [] then ProbeStep(m, [])
    else
      var first := CheckServices(m, probes[0]);
      var rest := Run(first.status, probes[1..]);
      ProbeStep(rest.status, first.log + rest.log)
  }

  // ---------------------------------------------------------------------------
  // Reference definitions over the sequence of flag values
  // ---------------------------------------------------------------------------

  /** The flag before the first probe and after each probe. */
  function History(up: bool, probes: seq<ProbeResult>): (h: seq<bool>)
    ensures |h| == |probes| + 1 && h[0] == up
    ensures forall i :: 0 <= i < |probes| ==> h[i + 1] == Succeeded(probes[i])
  {
    [up] + seq(|probes|, i requires 0 <= i < |probes| => Succeeded(probes[i]))
  }

  /** The number of false-to-true edges in a sequence of flag values. */
  function Rises(h: seq<bool>): nat
    decreases |h|
  {
    if |h| < 2 then 0
    else (if !h[0] && h[1] then 1 else 0) + Rises(h[1..])
  }

  function Count<T(==)>(s: seq<T>, x: T): nat
    decreases |s|
  {
    if s == [] then 0
    else (if s[0] == x then 1 else 0) + Count(s[1..], x)
  }

  lemma {:induction false} CountAppend<T>(a: seq<T>, b: seq<T>, x: T)
    ensures Count(a + b, x) == Count(a, x) + Count(b, x)
    decreases |a|
  {
    if a != [] {
      assert (a + b)[1..] == a[1..] + b;
      CountAppend(a[1..], b, x);
    } else {
      assert a + b == b;
    }
  }

  lemma HistoryTail(up: bool, probes: seq<ProbeResult>)
    requires probes != []
    ensures History(up, probes)[1..] == History(Succeeded(probes[0]), probes[1..])
  {
  }

  // ---------------------------------------------------------------------------
  // Properties of a series of probes
  // ---------------------------------------------------------------------------

  /**
   After any series of probes the flag the gateway reads is the outcome of
   the last probe, or the previous flag when there was none.
   */
  lemma {:induction false} RunEndsWithLastProbe(m: ServiceStatus, probes: seq<ProbeResult>)
    ensures GetServiceStatus(Run(m, probes).status).comment
            == if probes == [] then m.comment else Succeeded(probes[|probes| - 1])
    decreases |probes|
  {
    if probes != [] {
      var first := CheckServices(m, probes[0]);
      RunEndsWithLastProbe(first.status, probes[1..]);
      if |probes| > 1 {
        assert probes[1..][|probes| - 2] == probes[|probes| - 1];
      }
    }
  }

  /** From process start, the flag is up exactly when there was a probe and the last one succeeded. */
  lemma StatusFromStart(probes: seq<ProbeResult>)
    ensures GetServiceStatus(Run(Initial, probes).status).comment
            <==> probes != [] && Succeeded(probes[|probes| - 1])
  {
    RunEndsWithLastProbe(Initial, probes);
  }

  /**
   What a series of probes prints: one start line per probe, one recovery
   line per DOWN-to-UP edge of the flag (never on UP-to-UP) and one alert line
   per failed probe, whatever the flag was before it.
   */
  lemma {:induction false} RunLog(m: ServiceStatus, probes: seq<ProbeResult>)
    ensures Count(Run(m, probes).log, Checking) == |probes|
    ensures Count(Run(m, probes).log, Recovered) == Rises(History(m.comment, probes))
    ensures Count(Run(m, probes).log, Alert) == Count(History(m.comment, probes)[1..], false)
    decreases |probes|
  {
    var h := History(m.comment, probes);
    if probes == [] {
      assert h[1..] == [];
    } else {
      var first := CheckServices(m, probes[0]);
      var rest := Run(first.status, probes[1..]);
      RunLog(first.status, probes[1..]);
      HistoryTail(m.comment, probes);
      forall x: LogLine
        ensures Count(first.log + rest.log, x) == Count(first.log, x) + Count(rest.log, x)
      {
        CountAppend(first.log, rest.log, x);
      }
      var t := History(first.status.comment, probes[1..]);
      assert h[1..] == t;
      assert Count(h[1..], false) == (if Succeeded(probes[0]) then 0 else 1) + Count(t[1..], false);
      assert Rises(h) == (if !m.comment && Succeeded(probes[0]) then 1 else 0) + Rises(t);
    }
  }
}

=== FILE: ledger.dfy ===
/**
 The comment reaction ledger of the comment service: the handler of
 `POST /comments/:commentId/action`. Each (userId, commentId) pair has at
 most one CommentLike document; a request either creates it, deletes it
 (the same action sent again toggles it off) or switches it in place, and
 moves the comment's like/dislike counters to match.
 */
module Ledger {
  import opened Schema

  /** The four answers of the handler: 200 `{ success, likesCount }`, 400, 404 and 500. */
  datatype ActionReply =
    | Acted(success: bool, likesCount: int)
    | InvalidAction
    | CommentNotFound
    | ActionFailed

  function ReplyStatus(r: ActionReply): int {
    match r
    case Acted(_, _) => 200
    case InvalidAction => 400
    case CommentNotFound => 404
    case ActionFailed => 500
  }

  datatype ActionStep = ActionStep(store: Store, reply: ActionReply)

  /** The state of a pair: None when no document exists (the "none" state). */
  function Prior(reactions: map<ReactionKey, Action>, key: ReactionKey): Option<Action> {
    if key in reactions then Some(reactions[key]) else None
  }

  /** The pair's state after a request for `a`: the same action toggles off, any other sets `a`. */
  function Toggle(prior: Option<Action>, a: Action): (next: Option<Action>)
    ensures next == None <==> prior == Some(a)
    ensures next != None ==> next == Some(a)
  {
    if prior == Some(a) then None else Some(a)
  }

  /** `Math.max(0, n - 1)`: the defensive floor on every decrement. */
  function Decrement(n: int): (r: int)
    ensures r >= 0
    ensures n >= 1 ==> r == n - 1
    ensures n <= 1 ==> r == 0
  {
    if n - 1 < 0 then 0 else n - 1
  }

  /** Creates, deletes or updates the pair's document. */
  function Write(reactions: map<ReactionKey, Action>, key: ReactionKey, next: Option<Action>): (r: map<ReactionKey, Action>)
    ensures Prior(r, key) == next
    ensures forall k :: k != key ==> Prior(r, k) == Prior(reactions, k)
  {
    match next
    case None => reactions - {key}
    case Some(b) => reactions[key := b]
  }

  /**
   The handler's counter writes: a new document increments the
   matching counter; deleting one decrements it with the floor; switching
   increments the new action's counter and floor-decrements the other's.
   Nothing but the two counters changes.
   */
  function Recount(c: Comment, prior: Option<Action>, a: Action): (r: Comment)
    ensures prior == None ==>
              Counter(r, a) == Counter(c, a) + 1 && Counter(r, Opposite(a)) == Counter(c, Opposite(a))
    ensures prior == Some(a) ==>
              Counter(r, a) == Decrement(Counter(c, a)) && Counter(r, Opposite(a)) == Counter(c, Opposite(a))
    ensures prior == Some(Opposite(a)) ==>
              Counter(r, a) == Counter(c, a) + 1 && Counter(r, Opposite(a)) == Decrement(Counter(c, Opposite(a)))
    ensures r.(likesCount := c.likesCount, dislikesCount := c.dislikesCount) == c
  {
    match prior
    case None =>
      if a == Like then c.(likesCount := c.likesCount + 1)
      else c.(dislikesCount := c.dislikesCount + 1)
    case Some(p) =>
      if p == a then
        if a == Like then c.(likesCount := Decrement(c.likesCount))
        else c.(dislikesCount := Decrement(c.dislikesCount))
      else if a == Like then
        c.(likesCount := c.likesCount + 1, dislikesCount := Decrement(c.dislikesCount))
      else
        c.(dislikesCount := c.dislikesCount + 1, likesCount := Decrement(c.likesCount))
  }

  /**
   The handler. The action is checked before anything is read; a missing
   comment answers 404; creating a document whose userId is empty fails the
   `required` validator (500) before any counter is written.
   */
  function HandleAction(s: Store, commentId: string, userId: string, action: Field): (r: ActionStep)
    ensures !r.reply.Acted? ==> r.store == s
    ensures r.reply == InvalidAction <==> ParseAction(action) == None
    ensures r.reply == CommentNotFound <==> ParseAction(action) != None && commentId !in s.comments
    ensures r.reply.Acted? <==>
              ParseAction(action) != None && commentId in s.comments
              && (ReactionKey(userId, commentId) in s.reactions || Required(userId))
    ensures r.reply == ActionFailed <==>
              ParseAction(action) != None && commentId in s.comments
              && ReactionKey(userId, commentId) !in s.reactions && !Required(userId)
    ensures r.reply.Acted? ==>
              && r.reply.success
              && commentId in r.store.comments
              && r.reply.likesCount == r.store.comments[commentId].likesCount
              && Prior(r.store.reactions, ReactionKey(userId, commentId))
                 == Toggle(Prior(s.reactions, ReactionKey(userId, commentId)), ParseAction(action).value)
    ensures r.store.comments.Keys == s.comments.Keys
    ensures forall id :: id in s.comments && id != commentId ==> r.store.comments[id] == s.comments[id]
    ensures forall k :: k != ReactionKey(userId, commentId) ==> Prior(r.store.reactions, k) == Prior(s.reactions, k)
  {
    match ParseAction(action)
    case None => ActionStep(s, InvalidAction)
    case Some(a) =>
      if commentId !in s.comments then ActionStep(s, CommentNotFound)
      else
        var key := ReactionKey(userId, commentId);
        var prior := Prior(s.reactions, key);
        if prior == None && !Required(userId) then ActionStep(s, ActionFailed)
        else
          var c := Recount(s.comments[commentId], prior, a);
          ActionStep(
            Store(s.comments[commentId := c], Write(s.reactions, key, Toggle(prior, a))),
            Acted(true, c.likesCount))
  }

  // ---------------------------------------------------------------------------
  // The three transitions
  // ---------------------------------------------------------------------------

  /** With no prior document, one is created and only the matching counter rises by one. */
  lemma FirstReactionCreates(s: Store, commentId: string, userId: string, a: Action)
    requires commentId in s.comments && ReactionKey(userId, commentId) !in s.reactions && Required(userId)
    ensures var r := HandleAction(s, commentId, userId, Some(Name(a)));
            && r.reply.Acted?
            && r.store.reactions == s.reactions[ReactionKey(userId, commentId) := a]
            && Counter(r.store.comments[commentId], a) == Counter(s.comments[commentId], a) + 1
            && Counter(r.store.comments[commentId], Opposite(a)) == Counter(s.comments[commentId], Opposite(a))
  {
    ParseActionExact(Some(Name(a)));
  }

  /** Sending the recorded action again deletes the document and floor-decrements its counter. */
  lemma RepeatedReactionDeletes(s: Store, commentId: string, userId: string, a: Action)
    requires commentId in s.comments
    requires ReactionKey(userId, commentId) in s.reactions && s.reactions[ReactionKey(userId, commentId)] == a
    ensures var r := HandleAction(s, commentId, userId, Some(Name(a)));
            && r.reply.Acted?
            && r.store.reactions == s.reactions - {ReactionKey(userId, commentId)}
            && Counter(r.store.comments[commentId], a) == Decrement(Counter(s.comments[commentId], a))
            && Counter(r.store.comments[commentId], Opposite(a)) == Counter(s.comments[commentId], Opposite(a))
  {
    ParseActionExact(Some(Name(a)));
  }

  /** Sending the other action updates the one document in place and moves one unit across. */
  lemma OppositeReactionSwitches(s: Store, commentId: string, userId: string, a: Action)
    requires commentId in s.comments
    requires ReactionKey(userId, commentId) in s.reactions
    requires s.reactions[ReactionKey(userId, commentId)] == Opposite(a)
    ensures var r := HandleAction(s, commentId, userId, Some(Name(a)));
            && r.reply.Acted?
            && r.store.reactions.Keys == s.reactions.Keys
            && r.store.reactions == s.reactions[ReactionKey(userId, commentId) := a]
            && Counter(r.store.comments[commentId], a) == Counter(s.comments[commentId], a) + 1
            && Counter(r.store.comments[commentId], Opposite(a))
               == Decrement(Counter(s.comments[commentId], Opposite(a)))
  {
    ParseActionExact(Some(Name(a)));
  }

  /** From the "none" state, the same action twice restores the database exactly. */
  lemma SameActionTwiceRestores(s: Store, commentId: string, userId: string, a: Action)
    requires WellFormed(s)
    requires commentId in s.comments && ReactionKey(userId, commentId) !in s.reactions && Required(userId)
    ensures HandleAction(HandleAction(s, commentId, userId, Some(Name(a))).store, commentId, userId, Some(Name(a))).store == s
  {
    ParseActionExact(Some(Name(a)));
    var key := ReactionKey(userId, commentId);
    var c := s.comments[commentId];
    var c1 := Recount(c, None, a);
    var s1 := Store(s.comments[commentId := c1], s.reactions[key := a]);
    assert HandleAction(s, commentId, userId, Some(Name(a))).store == s1;
    var c2 := Recount(c1, Some(a), a);
    assert Prior(s1.reactions, key) == Some(a);
    assert HandleAction(s1, commentId, userId, Some(Name(a))).store
           == Store(s1.comments[commentId := c2], s1.reactions - {key});
    RemoveAfterInsert(s.reactions, key, a);
    assert c2 == c by {
      assert Counter(c2, a) == Counter(c, a);
      assert Counter(c2, Opposite(a)) == Counter(c, Opposite(a));
      if a == Like {} else {}
    }
    RestoreEntry(s.comments, commentId, c1);
  }

  lemma RemoveAfterInsert<K, V>(m: map<K, V>, k: K, v: V)
    requires k !in m
    ensures m[k := v] - {k} == m
  {
    var m' := m[k := v] - {k};
    assert m'.Keys == m.Keys;
    assert forall x :: x in m' ==> m'[x] == m[x];
  }

  lemma RestoreEntry<K, V>(m: map<K, V>, k: K, v: V)
    requires k in m
    ensures m[k := v][k := m[k]] == m
  {
    var m' := m[k := v][k := m[k]];
    assert m'.Keys == m.Keys;
    assert forall x :: x in m' ==> m'[x] == m[x];
  }

  // ---------------------------------------------------------------------------
  // Counter consistency
  // ---------------------------------------------------------------------------

  /** The documents recording action `a` on a comment. */
  function Holders(reactions: map<ReactionKey, Action>, commentId: string, a: Action): set<ReactionKey> {
    set k | k in reactions && k.commentId == commentId && reactions[k] == a
  }

  /** The number of documents recording action `a` on a comment. */
  function Tally(reactions: map<ReactionKey, Action>, commentId: string, a: Action): nat {
    |Holders(reactions, commentId, a)|
  }

  /** Each stored counter equals the number of matching documents for its comment. */
  ghost predicate Consistent(s: Store) {
    forall id, a: Action :: id in s.comments ==> Counter(s.comments[id], a) == Tally(s.reactions, id, a)
  }

  /** Writing one pair changes a tally only through that pair's old and new state. */
  lemma TallyAfterWrite(reactions: map<ReactionKey, Action>, key: ReactionKey, next: Option<Action>, commentId: string, a: Action)
    ensures Tally(Write(reactions, key, next), commentId, a)
              + (if key.commentId == commentId && Prior(reactions, key) == Some(a) then 1 else 0)
            == Tally(reactions, commentId, a)
              + (if key.commentId == commentId && next == Some(a) then 1 else 0)
  {
    var written := Write(reactions, key, next);
    var before := Holders(reactions, commentId, a);
    var after := Holders(written, commentId, a);
    var rest := before - {key};
    assert after - {key} == rest by {
      forall k | k in after - {key} ensures k in rest {
        assert Prior(written, k) == Prior(reactions, k);
      }
      forall k | k in rest ensures k in after - {key} {
        assert Prior(written, k) == Prior(reactions, k);
      }
    }
    if key.commentId == commentId && next == Some(a) {
      assert key in after;
      assert after == rest + {key};
    } else {
      assert after == rest;
    }
    if key.commentId == commentId && Prior(reactions, key) == Some(a) {
      assert before == rest + {key};
    } else {
      assert before == rest;
    }
  }

  /** A pair in a given state is one of the documents its comment's tally counts. */
  lemma TallyCountsPrior(reactions: map<ReactionKey, Action>, key: ReactionKey, a: Action)
    requires Prior(reactions, key) == Some(a)
    ensures Tally(reactions, key.commentId, a) >= 1
  {
    assert key in Holders(reactions, key.commentId, a);
  }

  /** On the touched comment, the new counters match the new tallies. */
  lemma RecountMatchesTally(c: Comment, reactions: map<ReactionKey, Action>, key: ReactionKey, a: Action, b: Action)
    requires forall b': Action :: Counter(c, b') == Tally(reactions, key.commentId, b')
    ensures Counter(Recount(c, Prior(reactions, key), a), b)
            == Tally(Write(reactions, key, Toggle(Prior(reactions, key), a)), key.commentId, b)
  {
    var prior := Prior(reactions, key);
    TallyAfterWrite(reactions, key, Toggle(prior, a), key.commentId, b);
    if prior.Some? {
      TallyCountsPrior(reactions, key, prior.value);
      assert Counter(c, prior.value) >= 1;
    }
    if b != a {
      assert b == Opposite(a);
    }
  }

  /** The floor keeps non-negative counters non-negative, whichever transition runs. */
  lemma RecountNonNegative(c: Comment, prior: Option<Action>, a: Action)
    requires c.likesCount >= 0 && c.dislikesCount >= 0
    ensures Recount(c, prior, a).likesCount >= 0 && Recount(c, prior, a).dislikesCount >= 0
  {
  }

  /** The handler keeps the database well formed; in particular no counter goes negative. */
  lemma ActionKeepsWellFormed(s: Store, commentId: string, userId: string, action: Field)
    requires WellFormed(s)
    ensures WellFormed(HandleAction(s, commentId, userId, action).store)
  {
    var r := HandleAction(s, commentId, userId, action);
    if r.reply.Acted? {
      var a := ParseAction(action).value;
      var key := ReactionKey(userId, commentId);
      var prior := Prior(s.reactions, key);
      var c := s.comments[commentId];
      var c' := Recount(c, prior, a);
      assert r.store == Store(s.comments[commentId := c'], Write(s.reactions, key, Toggle(prior, a)));
      RecountKeepsComment(s.comments, commentId, prior, a);
      forall k | k in r.store.reactions
        ensures Required(k.userId) && k.commentId in r.store.comments
      {
        assert Prior(r.store.reactions, k) != None;
        if k != key {
          assert Prior(s.reactions, k) != None;
        }
      }
    }
  }

  lemma RecountKeepsComment(comments: map<string, Comment>, id: string, prior: Option<Action>, a: Action)
    requires CommentsWellFormed(comments) && id in comments
    ensures CommentsWellFormed(comments[id := Recount(comments[id], prior, a)])
  {
    var c := comments[id];
    var c' := Recount(c, prior, a);
    RecountNonNegative(c, prior, a);
    assert c'.(likesCount := c.likesCount, dislikesCount := c.dislikesCount) == c;
    assert c'.id == c.id && c'.userId == c.userId && c'.videoId == c.videoId && c'.content == c.content;
  }

  /**
   The counter-consistency invariant: if every counter equalled its number of
   matching documents before a request, it still does after it.
   */
  lemma ActionKeepsConsistent(s: Store, commentId: string, userId: string, action: Field)
    requires Consistent(s)
    ensures Consistent(HandleAction(s, commentId, userId, action).store)
  {
    var r := HandleAction(s, commentId, userId, action);
    if r.reply.Acted? {
      var a := ParseAction(action).value;
      var key := ReactionKey(userId, commentId);
      var prior := Prior(s.reactions, key);
      var written := Write(s.reactions, key, Toggle(prior, a));
      var c' := Recount(s.comments[commentId], prior, a);
      assert r.store == Store(s.comments[commentId := c'], written);
      forall id, b: Action | id in r.store.comments
        ensures Counter(r.store.comments[id], b) == Tally(written, id, b)
      {
        if id == commentId {
          RecountMatchesTally(s.comments[commentId], s.reactions, key, a, b);
        } else {
          TallyAfterWrite(s.reactions, key, Toggle(prior, a), id, b);
        }
      }
    }
  }

  // ---------------------------------------------------------------------------
  // Sequences of requests
  // ---------------------------------------------------------------------------

  datatype ActionRequest = ActionRequest(commentId: string, userId: string, action: Field)

  /** The database after the requests are handled one after another. */
  function Replay(s: Store, requests: seq<ActionRequest>): Store
    decreases |requests|
  {
    if requests == [] then s
    else
      var q := requests[0];
      Replay(HandleAction(s, q.commentId, q.userId, q.action).store, requests[1..])
  }

  /**
   Without interleaving, any sequence of requests keeps every counter equal
   to its number of matching documents and never negative.
   */
  lemma {:induction false} ReplayKeepsConsistent(s: Store, requests: seq<ActionRequest>)
    requires WellFormed(s) && Consistent(s)
    ensures WellFormed(Replay(s, requests)) && Consistent(Replay(s, requests))
    decreases |requests|
  {
    if requests != [] {
      var q := requests[0];
      ActionKeepsWellFormed(s, q.commentId, q.userId, q.action);
      ActionKeepsConsistent(s, q.commentId, q.userId, q.action);
      ReplayKeepsConsistent(HandleAction(s, q.commentId, q.userId, q.action).store, requests[1..]);
    }
  }

  /**
   A user's like, then dislike, then dislike again (the toggle-off that
   stands in for clearing) takes a comment's counters (0, 0) to (1, 0),
   (0, 1) and back to (0, 0).
   */
  lemma LikeDislikeClearScenario(s: Store, commentId: string, userId: string)
    requires WellFormed(s) && Consistent(s)
    requires commentId in s.comments && Required(userId)
    requires s.comments[commentId].likesCount == 0 && s.comments[commentId].dislikesCount == 0
    ensures var s1 := HandleAction(s, commentId, userId, Some("like")).store;
            var s2 := HandleAction(s1, commentId, userId, Some("dislike")).store;
            var s3 := HandleAction(s2, commentId, userId, Some("dislike")).store;
            && s1.comments[commentId].likesCount == 1 && s1.comments[commentId].dislikesCount == 0
            && s2.comments[commentId].likesCount == 0 && s2.comments[commentId].dislikesCount == 1
            && s3.comments[commentId].likesCount == 0 && s3.comments[commentId].dislikesCount == 0
            && ReactionKey(userId, commentId) !in s3.reactions
  {
    var key := ReactionKey(userId, commentId);
    if key in s.reactions {
      TallyCountsPrior(s.reactions, key, s.reactions[key]);
      assert false;
    }
    FirstReactionCreates(s, commentId, userId, Like);
    var s1 := HandleAction(s, commentId, userId, Some("like")).store;
    OppositeReactionSwitches(s1, commentId, userId, Dislike);
    var s2 := HandleAction(s1, commentId, userId, Some("dislike")).store;
    RepeatedReactionDeletes(s2, commentId, userId, Dislike);
  }
}

=== FILE: schema.dfy ===
/**
 The comment service's documents: the Comment and CommentLike collections,
 the database that holds them, and the string conventions Mongoose applies
 to their fields (JavaScript truthiness, the `required` validator and the
 `trim` setter).
 */
module Schema {

  datatype Option<+T> = None | Some(value: T)

  /** A string field of a JSON request body: None when it is absent or null. */
  type Field = Option<string>

  /** JavaScript truthiness of a string field: present and not the empty string. */
  predicate Truthy(f: Field) {
    f.Some? && f.value != ""
  }

  /** Mongoose's `required` validator on a String path refuses the empty string. */
  predicate Required(s: string) {
    s != ""
  }

  // ---------------------------------------------------------------------------
  // Reactions
  // ---------------------------------------------------------------------------

  /** The `action` enum of a CommentLike: there is no persisted "none". */
  datatype Action = Like | Dislike

  function Name(a: Action): string {
    match a
    case Like => "like"
    case Dislike => "dislike"
  }

  function Opposite(a: Action): (b: Action)
    ensures b != a
  {
    match a
    case Like => Dislike
    case Dislike => Like
  }

  /** Accepts exactly the two enum values, as `['like', 'dislike'].includes(action)`. */
  function ParseAction(raw: Field): (r: Option<Action>)
    ensures r.Some? ==> raw == Some(Name(r.value))
  {
    if raw == Some("like") then Some(Like)
    else if raw == Some("dislike") then Some(Dislike)
    else None
  }

  lemma ParseActionExact(raw: Field)
    ensures ParseAction(raw).Some? <==> exists a: Action :: raw == Some(Name(a))
    ensures forall a: Action :: ParseAction(Some(Name(a))) == Some(a)
  {
    if ParseAction(raw).Some? {
      var a := ParseAction(raw).value;
      assert raw == Some(Name(a));
    }
  }

  /** The unique index of the CommentLike collection is on this pair. */
  datatype ReactionKey = ReactionKey(userId: string, commentId: string)

  /** One CommentLike document. */
  datatype CommentLike = CommentLike(userId: string, commentId: string, action: Action)

  // ---------------------------------------------------------------------------
  // Comments
  // ---------------------------------------------------------------------------

  /**
   One Comment document. The schema declares no like/dislike counters, yet the
   action handler reads and writes them; they are modelled as integers that a
   new comment starts at 0. `createdAt` is a millisecond timestamp and
   `parentId` None stands for null.
   */
  datatype Comment = Comment(
    id: string,
    userId: string,
    videoId: string,
    content: string,
    parentId: Option<string>,
    createdAt: int,
    likesCount: int,
    dislikesCount: int)

  /** The counter an action moves. */
  function Counter(c: Comment, a: Action): int {
    match a
    case Like => c.likesCount
    case Dislike => c.dislikesCount
  }

  /**
   The comment service's database. Reactions are a map from the unique
   (userId, commentId) pair to the recorded action, so that the unique index
   holds by construction; comments are keyed by their `_id`.
   */
  datatype Store = Store(comments: map<string, Comment>, reactions: map<ReactionKey, Action>)

  /** The CommentLike collection seen as a set of documents. */
  function Records(s: Store): (docs: set<CommentLike>)
    ensures forall k :: k in s.reactions ==> CommentLike(k.userId, k.commentId, s.reactions[k]) in docs
    ensures forall d :: d in docs ==> ReactionKey(d.userId, d.commentId) in s.reactions
  {
    set k | k in s.reactions :: CommentLike(k.userId, k.commentId, s.reactions[k])
  }

  /** The unique index on (userId, commentId): no two documents share the pair. */
  lemma AtMostOneRecordPerPair(s: Store, d1: CommentLike, d2: CommentLike)
    requires d1 in Records(s) && d2 in Records(s)
    requires d1.userId == d2.userId && d1.commentId == d2.commentId
    ensures d1 == d2
  {
    var k1 :| k1 in s.reactions && d1 == CommentLike(k1.userId, k1.commentId, s.reactions[k1]);
    var k2 :| k2 in s.reactions && d2 == CommentLike(k2.userId, k2.commentId, s.reactions[k2]);
    assert k1 == k2;
  }

  /** A Comment document that passed schema validation. */
  predicate ValidComment(c: Comment) {
    && Required(c.userId)
    && Required(c.videoId)
    && Required(c.content)
    && Trimmed(c.content)
  }

  /**
   What the database holds between requests: every comment is stored under
   its own id, passed validation and has non-negative counters; every
   reaction has a non-empty userId (both paths are `required`) and refers to
   a stored comment.
   */
  ghost predicate WellFormed(s: Store) {
    CommentsWellFormed(s.comments) && ReactionsWellFormed(s)
  }

  ghost predicate CommentsWellFormed(comments: map<string, Comment>) {
    forall id :: id in comments ==>
      && comments[id].id == id
      && Required(id)
      && ValidComment(comments[id])
      && comments[id].likesCount >= 0
      && comments[id].dislikesCount >= 0
  }

  ghost predicate ReactionsWellFormed(s: Store) {
    forall k :: k in s.reactions ==> Required(k.userId) && k.commentId in s.comments
  }

  /** Inserting a validated comment under its own, non-empty id keeps the database well formed. */
  lemma InsertKeepsWellFormed(s: Store, c: Comment)
    requires WellFormed(s) && Required(c.id) && ValidComment(c)
    requires c.likesCount >= 0 && c.dislikesCount >= 0
    ensures WellFormed(Store(s.comments[c.id := c], s.reactions))
  {
    var s' := Store(s.comments[c.id := c], s.reactions);
    assert CommentsWellFormed(s'.comments);
    assert ReactionsWellFormed(s');
  }

  /**
   `Comment.create({ userId, videoId, content })`: the `trim` setter runs
   first, then the `required` validators; `parentId` defaults to null and
   `createdAt` to the creation time. A failed validation yields None.
   */
  function NewComment(id: string, userId: string, videoId: string, content: string, now: int): (r: Option<Comment>)
    ensures r.Some? <==> Required(userId) && Required(videoId) && Required(Trim(content))
    ensures r.Some? ==> ValidComment(r.value)
    ensures r.Some? ==> r.value.id == id && r.value.userId == userId && r.value.videoId == videoId
    ensures r.Some? ==> r.value.content == Trim(content)
    ensures r.Some? ==> r.value.parentId == None && r.value.createdAt == now
    ensures r.Some? ==> r.value.likesCount == 0 && r.value.dislikesCount == 0
  {
    var trimmed := Trim(content);
    TrimIsTrimmed(content);
    if Required(userId) && Required(videoId) && Required(trimmed) then
      Some(Comment(id, userId, videoId, trimmed, None, now, 0, 0))
    else
      None
  }

  // ---------------------------------------------------------------------------
  // String.prototype.trim
  // ---------------------------------------------------------------------------

  /**
   ECMAScript WhiteSpace and LineTerminator code points: TAB, VT, FF, SP,
   NBSP, ZWNBSP, the other Zs space separators, LF, CR, LS and PS.
   */
  predicate IsSpace(ch: char) {
    || ch == '\t' || ch == '\U{000B}' || ch == '\U{000C}' || ch == ' '
    || ch == '\U{00A0}' || ch == '\U{FEFF}' || ch == '\U{1680}'
    || ('\U{2000}' <= ch <= '\U{200A}')
    || ch == '\U{202F}' || ch == '\U{205F}' || ch == '\U{3000}'
    || ch == '\n' || ch == '\r' || ch == '\U{2028}' || ch == '\U{2029}'
  }

  predicate AllSpace(s: string) {
    forall i :: 0 <= i < |s| ==> IsSpace(s[i])
  }

  function TrimStart(s: string): (r: string)
    ensures |r| <= |s| && r == s[|s| - |r|..]
    ensures AllSpace(s[..|s| - |r|])
    ensures r == [] || !IsSpace(r[0])
  {
    if s == [] || !IsSpace(s[0]) then s
    else
      var r := TrimStart(s[1..]);
      assert s[1..][|s| - 1 - |r|..] == s[|s| - |r|..];
      assert forall i :: 1 <= i < |s| - |r| ==> s[i] == s[1..][..|s| - 1 - |r|][i - 1];
      r
  }

  function TrimEnd(s: string): (r: string)
    ensures |r| <= |s| && r == s[..|r|]
    ensures AllSpace(s[|r|..])
    ensures r == [] || !IsSpace(r[|r| - 1])
  {
    if s == [] || !IsSpace(s[|s| - 1]) then s
    else
      var r := TrimEnd(s[..|s| - 1]);
      assert s[..|s| - 1][..|r|] == s[..|r|];
      assert forall i :: |r| <= i < |s| - 1 ==> s[i] == s[..|s| - 1][|r|..][i - |r|];
      r
  }

  /** Neither starts nor ends with white space. */
  predicate Trimmed(s: string) {
    s == [] || (!IsSpace(s[0]) && !IsSpace(s[|s| - 1]))
  }

  /** `String.prototype.trim`: drops leading and trailing white space. */
  function Trim(s: string): string {
    TrimEnd(TrimStart(s))
  }

  /**
   What trimming keeps: the input is white space, then the result, then
   white space; the result neither starts nor ends with white space.
   */
  lemma TrimSplits(s: string) returns (i: nat, j: nat)
    ensures i <= j <= |s| && Trim(s) == s[i..j]
    ensures AllSpace(s[..i]) && AllSpace(s[j..])
    ensures Trimmed(Trim(s))
  {
    var t := TrimStart(s);
    var r := TrimEnd(t);
    i := |s| - |t|;
    j := i + |r|;
    assert r == t[..|r|];
    assert t == s[i..];
    assert r == s[i..j];
    assert s[j..] == t[|r|..];
    if r != [] {
      assert r[0] == t[0];
    }
  }

  lemma TrimIsTrimmed(s: string)
    ensures Trimmed(Trim(s))
  {
    var _, _ := TrimSplits(s);
  }

  /** Trimming leaves a trimmed string alone. */
  lemma TrimOfTrimmed(s: string)
    requires Trimmed(s)
    ensures Trim(s) == s
  {
    assert TrimStart(s) == s;
    assert TrimEnd(s) == s;
  }

  /** The strings trimming fixes are exactly the trimmed ones; so trimming twice is trimming once. */
  lemma TrimFixesTrimmed(s: string)
    ensures Trim(s) == s <==> Trimmed(s)
    ensures Trim(Trim(s)) == Trim(s)
  {
    TrimIsTrimmed(s);
    TrimOfTrimmed(Trim(s));
    if Trimmed(s) {
      TrimOfTrimmed(s);
    }
  }

  /** A string with nothing but white space trims to the empty string. */
  lemma TrimAllSpace(s: string)
    requires AllSpace(s)
    ensures Trim(s) == ""
  {
  }
}

=== FILE: system.dfy ===
/**
 The two services together: the gateway's routes with the comment service
 answering them. The gateway's downstream reply is the comment service
 handler's answer, so the properties of each side compose into what a
 client observes.
 */
module System {
  import opened Schema
  import Health
  import Ledger
  import Comments
  import Gateway

  // ---------------------------------------------------------------------------
  // Like / dislike through the gateway
  // ---------------------------------------------------------------------------

  datatype ActionOutcome = ActionOutcome(store: Store, exchange: Gateway.Exchange<Ledger.ActionReply>)

  /**
   A client's action request. `reachable` is false when the forwarded call
   gets no reply; the comment service then changes nothing.
   */
  function ClientAction(health: Health.ServiceStatus, s: Store, commentId: string, userId: string, action: Field,
                        reachable: bool): ActionOutcome
  {
    if health.comment && reachable then
      var step := Ledger.HandleAction(s, commentId, userId, action);
      var reply := Gateway.Answered(Ledger.ReplyStatus(step.reply), step.reply);
      ActionOutcome(step.store, Gateway.ForwardAction(health, commentId, userId, action, reply))
    else
      ActionOutcome(s, Gateway.ForwardAction(health, commentId, userId, action, Gateway.NoResponse))
  }

  /**
   What the client sees: 503 and no call with the circuit open; 500 with no
   reply; otherwise the comment service's own status (200, 400, 404 or 500)
   and body, unchanged by the gateway.
   */
  lemma ClientSeesLedgerReply(health: Health.ServiceStatus, s: Store, commentId: string, userId: string,
                              action: Field, reachable: bool)
    ensures var o := ClientAction(health, s, commentId, userId, action, reachable);
            && (!health.comment ==> o.store == s && o.exchange.calls == [] && o.exchange.response.status == 503)
            && (health.comment && !reachable ==> o.store == s && o.exchange.response.status == 500)
            && (health.comment && reachable ==>
                  var step := Ledger.HandleAction(s, commentId, userId, action);
                  && o.store == step.store
                  && o.exchange.response == Gateway.Response(Ledger.ReplyStatus(step.reply), Gateway.Passed(step.reply)))
  {
  }

  // ---------------------------------------------------------------------------
  // Comment creation through the gateway
  // ---------------------------------------------------------------------------

  datatype CreateOutcome = CreateOutcome(
    store: Store,
    counters: Comments.VideoCounters,
    exchange: Gateway.Exchange<Comments.CreateReply>)

  /**
   A client's create request, from the gateway's checks through the comment
   service's handler to the stats call, which is `delivered` or lost.
   */
  function ClientCreate(health: Health.ServiceStatus, s: Store, counters: Comments.VideoCounters,
                        userId: string, videoId: Field, content: Field,
                        video: Gateway.Lookup<()>, user: Gateway.Lookup<Gateway.Profile>,
                        reachable: bool, newId: string, now: int, delivered: bool): CreateOutcome
  {
    if health.comment && video.Found? && user.Found? && reachable then
      var o := Comments.CreateAndPropagate(s, counters, Some(userId), videoId, content, newId, now, delivered);
      var reply := Gateway.Answered(Comments.CreateStatus(o.reply), o.reply);
      CreateOutcome(o.store, o.counters, Gateway.CreateComment(health, userId, videoId, content, video, user, reply))
    else
      CreateOutcome(s, counters, Gateway.CreateComment(health, userId, videoId, content, video, user, Gateway.NoResponse))
  }

  /**
   End to end: with the circuit open the answer is 503 and nothing is
   called, stored or counted; for an unknown video it is 404 and nothing is
   forwarded; once forwarded, the client gets 201 exactly when the comment
   is stored, whatever became of the stats call.
   */
  lemma ClientCreateOutcomes(health: Health.ServiceStatus, s: Store, counters: Comments.VideoCounters,
                             userId: string, videoId: Field, content: Field,
                             video: Gateway.Lookup<()>, user: Gateway.Lookup<Gateway.Profile>,
                             reachable: bool, newId: string, now: int, delivered: bool)
    ensures var o := ClientCreate(health, s, counters, userId, videoId, content, video, user, reachable, newId, now, delivered);
            && (!health.comment ==>
                  o.exchange.response.status == 503 && o.exchange.calls == [] && o.store == s && o.counters == counters)
            && (health.comment && video.Missing? ==>
                  o.exchange.response.status == 404 && o.exchange.calls == [Gateway.FindVideo(videoId)]
                  && o.store == s && o.counters == counters)
            && (health.comment && video.Found? && user.Found? && reachable ==>
                  var step := Comments.CreateComment(s, Some(userId), videoId, content, newId, now);
                  && o.store == step.store
                  && o.exchange.response.status == Comments.CreateStatus(step.reply)
                  && (o.exchange.response.status == 201 <==> step.reply.Created?))
  {
  }

  /** A client create answers the same whether or not its stats call is delivered. */
  lemma ClientCreateIgnoresStats(health: Health.ServiceStatus, s: Store, counters: Comments.VideoCounters,
                                 userId: string, videoId: Field, content: Field,
                                 video: Gateway.Lookup<()>, user: Gateway.Lookup<Gateway.Profile>,
                                 reachable: bool, newId: string, now: int)
    ensures ClientCreate(health, s, counters, userId, videoId, content, video, user, reachable, newId, now, true).exchange
            == ClientCreate(health, s, counters, userId, videoId, content, video, user, reachable, newId, now, false).exchange
  {
    Comments.ResponseIgnoresStats(s, counters, Some(userId), videoId, content, newId, now);
  }

  /**
   The video comment counters never overtake the true comment count: a
   create may lose its increment, and a like or dislike moves no comment
   between videos.
   */
  lemma ClientRequestsKeepUnderCount(health: Health.ServiceStatus, s: Store, counters: Comments.VideoCounters,
                                     userId: string, videoId: Field, content: Field,
                                     video: Gateway.Lookup<()>, user: Gateway.Lookup<Gateway.Profile>,
                                     reachable: bool, newId: string, now: int, delivered: bool,
                                     commentId: string, action: Field)
    requires Comments.UnderCounts(s, counters)
    ensures var o := ClientCreate(health, s, counters, userId, videoId, content, video, user, reachable, newId, now, delivered);
            Comments.UnderCounts(o.store, o.counters)
    ensures Comments.UnderCounts(ClientAction(health, s, commentId, userId, action, reachable).store, counters)
  {
    if health.comment && video.Found? && user.Found? && reachable {
      Comments.CreateKeepsUnderCount(s, counters, Some(userId), videoId, content, newId, now, delivered);
    }
    var s' := ClientAction(health, s, commentId, userId, action, reachable).store;
    forall v
      ensures Comments.CommentCounter(counters, v) <= |Comments.CommentsOn(s'.comments, v)|
    {
      assert Comments.CommentsOn(s'.comments, v) == Comments.CommentsOn(s.comments, v) by {
        if health.comment && reachable {
          var step := Ledger.HandleAction(s, commentId, userId, action);
          assert s' == step.store;
          forall id | id in s.comments
            ensures s'.comments[id].videoId == s.comments[id].videoId
          {
            if id == commentId && step.reply.Acted? {
              var a := ParseAction(action).value;
              var c := s.comments[commentId];
              var prior := Ledger.Prior(s.reactions, ReactionKey(userId, commentId));
              assert s'.comments[id] == Ledger.Recount(c, prior, a);
            }
          }
        }
      }
    }
  }

  // ---------------------------------------------------------------------------
  // Listing through the gateway
  // ---------------------------------------------------------------------------

  /** A stored comment as the gateway receives it. */
  function AsRaw(c: Comment): Gateway.RawComment<Comment> {
    Gateway.RawComment(c.userId, c)
  }

  /** The stored documents behind a listing, in listing order. */
  function ListedDocuments(listed: seq<Gateway.Enriched<Comment>>): (r: seq<Comment>)
    ensures |r| == |listed| && forall i :: 0 <= i < |listed| ==> r[i] == listed[i].comment.fields
  {
    seq(|listed|, i requires 0 <= i < |listed| => listed[i].comment.fields)
  }

  /**
   A client's list request with both services up and answering. `queryFails`
   says whether the gateway's user query throws, as it does for a userId that
   is not an ObjectId; then the client sees an empty list. Otherwise it sees
   every comment of the video exactly once, newest first, each with its
   author from the directory or the placeholder.
   */
  method ClientList(health: Health.ServiceStatus, s: Store, videoId: string, directory: map<string, Gateway.Profile>,
                    queryFails: bool)
    returns (x: Gateway.Exchange<Comment>)
    requires health.comment
    ensures x.response.status == 200 && x.response.body.Listing?
    ensures queryFails ==> x.response.body.comments == []
    ensures !queryFails ==>
            var listed := x.response.body.comments;
            && |listed| == |Comments.CommentsOn(s.comments, videoId)|
            && (forall i, j :: 0 <= i < j < |listed| ==>
                  listed[i].comment.fields.createdAt >= listed[j].comment.fields.createdAt)
            && (forall i :: 0 <= i < |listed| ==>
                  && listed[i].comment.fields in s.comments.Values
                  && listed[i].comment.fields.videoId == videoId
                  && listed[i].user == (var u := listed[i].comment.fields.userId;
                                        if u in directory then Gateway.Resolved(directory[u]) else Gateway.Placeholder))
            && (forall id :: id in Comments.CommentsOn(s.comments, videoId) ==>
                  exists i :: 0 <= i < |listed| && listed[i].comment.fields == s.comments[id])
            && (forall c :: multiset(ListedDocuments(listed))[c]
                            == |Comments.Holding(s.comments, Comments.CommentsOn(s.comments, videoId), c)|)
  {
    var found := Comments.ListComments(s.comments, videoId);
    var raw := seq(|found|, i requires 0 <= i < |found| => AsRaw(found[i]));
    x := Gateway.ListComments(health, videoId, Gateway.Answered(200, raw), directory, queryFails);
    if queryFails {
      Gateway.ListDegradesToEmpty(health, videoId, Gateway.Answered(200, raw), directory, queryFails);
    } else {
      Gateway.ListJoinsUsers(health, videoId, 200, raw, directory);
      forall id | id in Comments.CommentsOn(s.comments, videoId)
        ensures exists i :: 0 <= i < |x.response.body.comments| && x.response.body.comments[i].comment.fields == s.comments[id]
      {
        var i :| 0 <= i < |found| && found[i] == s.comments[id];
        assert x.response.body.comments[i].comment == raw[i];
      }
      assert ListedDocuments(x.response.body.comments) == found;
    }
  }
}
